=== FILE: README.md ===
# Condenser summary validation, agent-control actions and the history carrier

A Dafny model of three small pieces of OpenDevin's context-window condenser.

- **`LlmMessages`** (`opendevin/llm/messages.py`): `Message` holds one
  history entry. It has a role/content map, a `condensable` flag and an
  optional source event id. The id defaults to `None`.
- **`AgentActions`** (`opendevin/events/action/agent.py`): the closed set of
  agent-control actions as one datatype with five constructors. The
  constructors are state change, summarize, finish, reject and delegate, and
  each keeps its dataclass defaults. `Message(a)` is the derived
  human-readable view. `SummaryText(a)` is the summarize action's
  `__str__`. `Tag(a)` is the fixed action tag. `WithSource(a, src)` is the
  assignment to `_source`. Four texts have a reader that recovers fields
  from them, each with a round-trip lemma: the state-change message (the
  state), the reject message (the reason), the delegate message (the agent)
  and `__str__` (both summaries). The `__str__` reader works only when the
  actions summary is one line, and `SummaryTextNotInjective` shows why: an
  actions summary that contains the observations line renders like a
  different pair. The finish message has no reader, and
  `FinishMessageNotInvertible` shows why: an empty thought and a thought
  equal to the default greeting give the same message.
- **`CondenserPrompts`** (`opendevin/condenser/prompts.py`):
  `ParseSummaryResponse` turns raw LLM text into a summarize action
  attributed to the agent, or into an error. It also holds the `WordLimit`
  constant, which is 200 as in `WORD_LIMIT` (prompts.py:12). The JSON decoder and `action_from_dict` are defined
  elsewhere in the repository, so they are function parameters (`Decoder`,
  `ActionMapper`) and nothing is assumed about which inputs they accept.
  Exceptions become a `Result`. Caught exceptions turn into
  `InvalidSummaryResponse(message, chained)`, where `chained` is the
  exception the error is raised `from` (its `__cause__`): the caught
  exception for the two LLM kinds, `None` for the wrong-kind error.
  Exceptions that are not caught stay `Uncaught(e)`.
- **`Wrappers`** and **`Strings`** are helpers. They provide `Option`,
  `Result`, prefix tests and the first-index search.

Modelling decisions:

- The parser code catches only `LLMResponseError` and
  `LLMMalformedActionError` (prompts.py:78). Any other exception from the
  decoder or the mapper propagates unchanged and is modelled as
  `Uncaught`.
- `InvalidSummaryResponseError` is raised inside the `try`. The model assumes
  it is not a subclass of either caught kind, so it is not wrapped a second
  time. The exception hierarchy is not part of this model.
- The mapper may return an action class defined outside agent.py. That case
  is `ForeignAction(qualifiedName)`. The wrong-kind message uses
  `str(type(action))`, which is `<class '...'>` and is modelled by
  `TypeRepr`. For the five variants the qualified name is
  `opendevin.events.action.agent.` followed by the class name. Two
  assumptions about classes outside these modules are listed under
  "## Left out".
- `last_summarized_event_id = -1` has no type annotation. It is therefore a
  class attribute, not a dataclass field: the generated constructor does not
  accept it, and it takes no part in the generated equality. The model keeps
  it as a record field with default -1, so that it can be set after
  construction.
- The source enum is a local `EventSource = Agent | User`. An action's
  `source` is `Option<EventSource>`, where `None` means the source was never
  set. In Python `_source` is not a dataclass field: it is assigned after
  construction (prompts.py:77) and the generated `__eq__` ignores it, while in
  the model it is a constructor argument and takes part in equality.

## Model

| member | source | states |
|---|---|---|
| LlmMessages.ConstructorStoresArguments | opendevin/llm/messages.py:11-14 | the constructor stores the content map, the condensable flag and the event id exactly as given |
| LlmMessages.OmittedEventIdIsNone | opendevin/llm/messages.py:11-14 | omitting the event id gives `None`, the same as passing `None` |
| AgentActions.TagIdentifiesVariant | opendevin/events/action/agent.py:14-99 | two actions share an action tag exactly when they are the same variant, so the five tags are pairwise distinct |
| AgentActions.Message | opendevin/events/action/agent.py:16-103 | the finish message is never empty, the reject message starts with the fixed prefix, and the state-change and delegate messages have their fixed frames |
| AgentActions.StateChangeMessageRoundTrip | opendevin/events/action/agent.py:16-18 | the state-change message is "Agent state changed to " + state, and the state is read back from it |
| AgentActions.SummarizeMessageIsObservations | opendevin/events/action/agent.py:56-58 | the summarize message is the observations summary; the actions summary, watermark and delegate flag do not affect it |
| AgentActions.SummarizeDefaults | opendevin/events/action/agent.py:48-54 | the defaults are two empty summaries, watermark -1 and not a delegate summary, and they render an empty message and a text with empty summary lines |
| AgentActions.SummaryText | opendevin/events/action/agent.py:60-64 | `__str__` starts with the header line and the actions label, and when the actions summary is one line, splitting the text at its labelled lines gives back both summaries |
| AgentActions.ParseSummaryText | opendevin/events/action/agent.py:60-64 | any text the reader accepts is "**AgentSummarizeAction**" + line break + "SUMMARIZED ACTIONS: " + actions + line break + "SUMMARIZED OBSERVATIONS: " + observations + line break for the summaries it returns, that is, their `__str__` |
| AgentActions.SummaryTextRoundTrip | opendevin/events/action/agent.py:60-64 | both summaries are read back from `__str__` whenever the actions summary is one line |
| AgentActions.SummaryTextNotInjective | opendevin/events/action/agent.py:60-64 | for all x, y, z: actions x + line break + "SUMMARIZED OBSERVATIONS: " + y with observations z, and actions x with observations y + line break + "SUMMARIZED OBSERVATIONS: " + z, are different actions with the same `__str__` |
| AgentActions.FinishMessageNotInvertible | opendevin/events/action/agent.py:73-77 | an empty thought and a thought equal to the default greeting give the same finish message |
| AgentActions.FinishMessageCases | opendevin/events/action/agent.py:73-77 | the finish message is the thought when it is non-empty, else "All done! What's next on the agenda?"; the outputs do not affect it |
| AgentActions.RejectMessageReason | opendevin/events/action/agent.py:86-91 | the reject message is the fixed prefix, plus " Reason: " + the reason exactly when the outputs hold "reason", and the reason is read back from it |
| AgentActions.DelegateMessageNamesAgent | opendevin/events/action/agent.py:101-103 | the delegate message is "I'm asking " + agent + " for help with this task."; the agent is read back from it, and two messages are equal exactly when the agents are |
| AgentActions.WithSource | opendevin/condenser/prompts.py:77 | re-attribution sets the source and keeps the action's tag |
| AgentActions.WithSourceChangesOnlySource | opendevin/condenser/prompts.py:77 | re-attribution changes only the source: the result, given back the old source, is the original action field for field (whether the old source was set or not); restoring a set source undoes it, repeating it changes nothing, and the message is unaffected |
| AgentActions.ClassNameIdentifiesVariant | opendevin/events/action/agent.py:9-95 | the five classes have pairwise different names: two actions have the same class name exactly when they are the same variant |
| CondenserPrompts.TypeRepr | opendevin/condenser/prompts.py:74 | `str(type(action))` is "<class '" + the qualified class name + "'>", and the name is read back from between the frames |
| CondenserPrompts.TypeReprIdentifiesClass | opendevin/condenser/prompts.py:74 | two received actions print the same type exactly when their qualified class names agree, and for the five variants exactly when they are the same variant |
| CondenserPrompts.Received | opendevin/condenser/prompts.py:74 | the text after "got " is "None" when nothing was mapped, and otherwise the framed qualified class name of the received action |
| CondenserPrompts.Wrap | opendevin/condenser/prompts.py:78-82 | the two LLM error kinds become an invalid-summary error "Failed to parse the response: " + the original message, chained from the caught exception (`raise ... from e`); any other exception escapes unchanged |
| CondenserPrompts.ParseSummaryResponse | opendevin/condenser/prompts.py:61-83 | a success is always a summarize action with source Agent that differs from the mapped one only in its source; it succeeds exactly when the mapper produced a summarize action; nothing mapped or a wrong kind gives "Expected a summarize action, but the response got " + None or the received type; caught errors are re-raised with their message and chained from the caught exception, while the wrong-kind error has no chained cause; a result is either an action or an error, never both |
| CondenserPrompts.InputSourceIsIgnored | opendevin/condenser/prompts.py:72-83 | two mappers whose answers differ only in the action's source give the same outcome: provenance never comes from the input |
| CondenserPrompts.AcceptedSummaryKeepsContent | opendevin/condenser/prompts.py:72-83 | an accepted summary keeps both summaries, the watermark, the delegate flag and the message of the mapped action |
| CondenserPrompts.CauseOfRoundTrip | opendevin/condenser/prompts.py:74-81 | the wrong-kind and parse-failure message forms cannot be confused: the cause, and the received type or the original message, are read back from the text |
| CondenserPrompts.ParserErrorsHaveKnownCause | opendevin/condenser/prompts.py:70-83 | every invalid-summary error the parser raises has one of the two message forms |
| CondenserPrompts.NoneIsNotAType | opendevin/condenser/prompts.py:73-74 | "got None" never coincides with the message for any received action type |

## Left out

- JSON decoding and `action_from_dict`: their code is not part of this model. They are parameters of the parser, and the model does not say which inputs they accept. Because of this, the model does not follow the prompt's `{"action": "summarize", "args": {"summary": ...}}` reply end to end: the summarize action has no `summary` field, and whether the mapper accepts such a reply depends on code outside this model.
- Logging before each raise (prompts.py:75 and 79): side effects only.
- The prompt template and its `%(events)s` formatting (prompts.py:35-58): this is text for the LLM, not behaviour. `{WORD_LIMIT}` in it is not a placeholder and is never substituted. No step checks the word limit.
- `MESSAGE_SUMMARY_WARNING_FRAC` (prompts.py:13) is a float constant that nothing in prompts.py reads; no size-based condensation trigger or range selection is modelled.
- The commented-out earlier summarize action and prompt (agent.py:21-35, prompts.py:15-33): dead code.
- `Message` (messages.py) is a mutable class compared by identity; the model is an immutable value with structural equality.
- The `Action` base class, the `EventSource` enum and the `ActionType` string values are not part of this model. Tags are an enum, and sources are a two-value local enum.
- The `action` field is a dataclass field with a default, so a caller could override it. The model treats each variant's tag as fixed.
- Dict values are modelled as strings. If `outputs['reason']` is not a `str`, the Python concatenation in the reject message raises `TypeError`, and the model does not cover that case.
- In the model the decoder and the mapper are functions, so parsing the same text twice gives equal results; whether the repository's decoder and mapper are deterministic is outside this model.
- CondenserPrompts.ParseSummaryResponse: the mapper is assumed to return no subclass of `AgentSummarizeAction` defined outside agent.py (`isinstance` at prompts.py:73 would accept one, while the model rejects every `ForeignAction`), and no falsy action (`if action else None` at prompts.py:74 depends on the truthiness of the `Action` base class and of foreign action classes, which are not part of this model).
- `ForeignAction` names are unconstrained: the model does not stop a foreign name from lying inside `opendevin.events.action.agent`, so such a value prints the same type as one of the five variants while still being rejected.

=== FILE: agent_actions.dfy ===
/** The closed family of agent-control actions (opendevin/events/action/agent.py):
    a state-change notification, a summary of condensed history, finishing,
    rejecting, and delegating to another agent. Each variant's `message` is a
    view computed from its current fields. */
module AgentActions {
  import opened Wrappers
  import opened Strings

  /** Who an event is attributed to. The repository's own enum is not part of
      this model; `None` in an action's `source` means it was never set. */
  datatype EventSource = Agent | User

  /** The fixed `action` tag each variant declares. */
  datatype ActionType = ChangeAgentStateType | SummarizeType | FinishType | RejectType | DelegateType

  /** One constructor per dataclass, with the dataclass defaults. Dict-valued
      fields carry string values. */
  datatype Action =
    | ChangeAgentState(
        agentState: string,
        thought: string := "",
        source: Option<EventSource> := None)
    | Summarize(
        summarizedActions: string := "",
        summarizedObservations: string := "",
        lastSummarizedEventId: int := -1,
        isDelegateSummary: bool := false,
        source: Option<EventSource> := None)
    | Finish(
        outputs: map<string, string> := map[],
        thought: string := "",
        source: Option<EventSource> := None)
    | Reject(
        outputs: map<string, string> := map[],
        thought: string := "",
        source: Option<EventSource> := None)
    | Delegate(
        agent: string,
        inputs: map<string, string>,
        thought: string := "",
        source: Option<EventSource> := None)

  const StateChangedPrefix: string := "Agent state changed to "
  const FinishDefault: string := "All done! What's next on the agenda?"
  const RejectPrefix: string := "Task is rejected by the agent."
  const ReasonLabel: string := " Reason: "
  const DelegatePrefix: string := "I'm asking "
  const DelegateSuffix: string := " for help with this task."

  const SummaryHeader: string := "**AgentSummarizeAction**\n"
  const ActionsLabel: string := "SUMMARIZED ACTIONS: "
  const ObservationsLabel: string := "SUMMARIZED OBSERVATIONS: "

  function Tag(a: Action): ActionType {
    match a
    case ChangeAgentState(_, _, _) => ChangeAgentStateType
    case Summarize(_, _, _, _, _) => SummarizeType
    case Finish(_, _, _) => FinishType
    case Reject(_, _, _) => RejectType
    case Delegate(_, _, _, _) => DelegateType
  }

  /** The tag names the variant: two actions share a tag exactly when they are
      built by the same constructor, so the five tags are pairwise distinct. */
  lemma TagIdentifiesVariant(a: Action, b: Action)
    ensures Tag(a) == Tag(b) <==>
      (a.ChangeAgentState? && b.ChangeAgentState?) ||
      (a.Summarize? && b.Summarize?) ||
      (a.Finish? && b.Finish?) ||
      (a.Reject? && b.Reject?) ||
      (a.Delegate? && b.Delegate?)
  {
  }

  /** The Python class name of each variant. */
  function ClassName(a: Action): string {
    match a
    case ChangeAgentState(_, _, _) => "ChangeAgentStateAction"
    case Summarize(_, _, _, _, _) => "AgentSummarizeAction"
    case Finish(_, _, _) => "AgentFinishAction"
    case Reject(_, _, _) => "AgentRejectAction"
    case Delegate(_, _, _, _) => "AgentDelegateAction"
  }

  /** Each variant has its own class name. */
  lemma ClassNameIdentifiesVariant(a: Action, b: Action)
    ensures ClassName(a) == ClassName(b) <==> Tag(a) == Tag(b)
  {
  }

  /** The same action attributed to `src`: the assignment to `_source`. */
  function WithSource(a: Action, src: EventSource): (r: Action)
    ensures r.source == Some(src)
    ensures Tag(r) == Tag(a)
  {
    match a
    case ChangeAgentState(state, thought, _) => ChangeAgentState(state, thought, Some(src))
    case Summarize(actions, observations, last, delegate, _) => Summarize(actions, observations, last, delegate, Some(src))
    case Finish(outputs, thought, _) => Finish(outputs, thought, Some(src))
    case Reject(outputs, thought, _) => Reject(outputs, thought, Some(src))
    case Delegate(agent, inputs, thought, _) => Delegate(agent, inputs, thought, Some(src))
  }

  /** `a` and `b` agree on every field except, perhaps, the source: giving
      `a` the source of `b` yields `b`. */
  predicate SameExceptSource(a: Action, b: Action) {
    a.(source := b.source) == b
  }

  /** Re-attributing changes the source and nothing else: it is undone by
      restoring the old source, repeating it changes nothing, and the message
      does not depend on the source. */
  lemma WithSourceChangesOnlySource(a: Action, src: EventSource)
    ensures SameExceptSource(WithSource(a, src), a)
    ensures WithSource(WithSource(a, src), src) == WithSource(a, src)
    ensures a.source.Some? ==> WithSource(WithSource(a, src), a.source.value) == a
    ensures Message(WithSource(a, src)) == Message(a)
  {
  }

  /** The human-readable view of an action. */
  function Message(a: Action): (r: string)
    ensures a.Finish? ==> r != ""
    ensures a.Reject? ==> StartsWith(r, RejectPrefix)
    ensures a.ChangeAgentState? ==> StartsWith(r, StateChangedPrefix)
    ensures a.Delegate? ==> StartsWith(r, DelegatePrefix) && EndsWith(r, DelegateSuffix)
  {
    match a
    case ChangeAgentState(state, _, _) =>
      DropPrefix(StateChangedPrefix, state);
      StateChangedPrefix + state
    case Summarize(_, observations, _, _, _) => observations
    case Finish(_, thought, _) => if thought != "" then thought else FinishDefault
    case Reject(outputs, _, _) =>
      if "reason" in outputs then
        DropPrefix(RejectPrefix, ReasonLabel + outputs["reason"]);
        RejectPrefix + ReasonLabel + outputs["reason"]
      else RejectPrefix
    case Delegate(agent, _, _, _) =>
      var r := DelegatePrefix + agent + DelegateSuffix;
      assert r[..|DelegatePrefix|] == DelegatePrefix;
      assert r[|r| - |DelegateSuffix|..] == DelegateSuffix;
      r
  }

  /** `__str__` of a summarize action: a header line, then one labelled line
      for the actions and one for the observations. */
  function SummaryText(a: Action): (r: string)
    requires a.Summarize?
    ensures StartsWith(r, SummaryHeader + ActionsLabel)
    ensures '\n' !in a.summarizedActions ==>
      SplitLabelled(r, SummaryHeader + ActionsLabel, ObservationsLabel) == Some((a.summarizedActions, a.summarizedObservations))
  {
    var r := SummaryHeader + ActionsLabel + a.summarizedActions + "\n"
             + ObservationsLabel + a.summarizedObservations + "\n";
    assert r[..|SummaryHeader + ActionsLabel|] == SummaryHeader + ActionsLabel;
    if '\n' in a.summarizedActions then r
    else
      SplitLabelledRoundTrip(SummaryHeader + ActionsLabel, a.summarizedActions, ObservationsLabel, a.summarizedObservations);
      r
  }

  // ---------------------------------------------------------------------
  // Reading the fields back out of the rendered texts.
  // ---------------------------------------------------------------------

  /** The agent state named by a state-change message. */
  function StateOfMessage(m: string): Option<string> {
    if StartsWith(m, StateChangedPrefix) then Some(m[|StateChangedPrefix|..]) else None
  }

  /** The state-change message is exactly the prefix followed by the state,
      and the state can be read back from it. */
  lemma StateChangeMessageRoundTrip(a: Action)
    requires a.ChangeAgentState?
    ensures Message(a) == StateChangedPrefix + a.agentState
    ensures StateOfMessage(Message(a)) == Some(a.agentState)
  {
    DropPrefix(StateChangedPrefix, a.agentState);
  }

  /** The reason named by a reject message, `None` when it names none. */
  function ReasonOfMessage(m: string): Option<string> {
    if StartsWith(m, RejectPrefix + ReasonLabel) then Some(m[|RejectPrefix + ReasonLabel|..]) else None
  }

  /** A reject message carries " Reason: X" exactly when the outputs hold the
      key "reason" with value X; otherwise it is exactly the fixed prefix. */
  lemma RejectMessageReason(a: Action)
    requires a.Reject?
    ensures "reason" in a.outputs ==> Message(a) == RejectPrefix + ReasonLabel + a.outputs["reason"]
    ensures "reason" !in a.outputs ==> Message(a) == RejectPrefix
    ensures ReasonOfMessage(Message(a)) ==
      (if "reason" in a.outputs then Some(a.outputs["reason"]) else None)
  {
    if "reason" in a.outputs {
      assert RejectPrefix + ReasonLabel + a.outputs["reason"]
          == (RejectPrefix + ReasonLabel) + a.outputs["reason"];
      DropPrefix(RejectPrefix + ReasonLabel, a.outputs["reason"]);
    } else {
      assert |RejectPrefix| < |RejectPrefix + ReasonLabel|;
    }
  }

  /** A finish message is the thought when there is one and the fixed
      greeting otherwise; the outputs play no part. */
  lemma FinishMessageCases(a: Action, b: Action)
    requires a.Finish? && b.Finish?
    ensures a.thought != "" ==> Message(a) == a.thought
    ensures a.thought == "" ==> Message(a) == FinishDefault
    ensures a.thought == b.thought ==> Message(a) == Message(b)
  {
  }

  /** The delegated-to agent named by a delegate message. */
  function AgentOfMessage(m: string): Option<string> {
    if |DelegatePrefix| + |DelegateSuffix| <= |m| && StartsWith(m, DelegatePrefix) && EndsWith(m, DelegateSuffix)
    then Some(m[|DelegatePrefix|..|m| - |DelegateSuffix|])
    else None
  }

  /** The delegate message names the agent and nothing else: the agent can be
      read back from it, and the inputs and thought do not affect it. */
  lemma {:induction false} DelegateMessageNamesAgent(a: Action, b: Action)
    requires a.Delegate? && b.Delegate?
    ensures Message(a) == DelegatePrefix + a.agent + DelegateSuffix
    ensures AgentOfMessage(Message(a)) == Some(a.agent)
    ensures Message(a) == Message(b) <==> a.agent == b.agent
  {
    var m := Message(a);
    assert m[|DelegatePrefix|..|m| - |DelegateSuffix|] == a.agent;
    var n := Message(b);
    assert n[|DelegatePrefix|..|n| - |DelegateSuffix|] == b.agent;
  }

  /** The summarize message is the observations summary; the actions summary,
      watermark and delegate flag do not affect it. */
  lemma SummarizeMessageIsObservations(a: Action, b: Action)
    requires a.Summarize? && b.Summarize?
    ensures Message(a) == a.summarizedObservations
    ensures a.summarizedObservations == b.summarizedObservations ==> Message(a) == Message(b)
  {
  }

  /** Every default of the summarize dataclass, and the texts it renders to. */
  lemma SummarizeDefaults()
    ensures Summarize().summarizedActions == ""
    ensures Summarize().summarizedObservations == ""
    ensures Summarize().lastSummarizedEventId == -1
    ensures !Summarize().isDelegateSummary
    ensures Summarize().source == None
    ensures Message(Summarize()) == ""
    ensures SummaryText(Summarize()) == SummaryHeader + ActionsLabel + "\n" + ObservationsLabel + "\n"
  {
  }

  /** Reads `head + x + "\n" + marker + y + "\n"` back into `x` and `y`, taking
      `x` to end at the first line break. */
  function SplitLabelled(s: string, head: string, marker: string): (r: Option<(string, string)>)
    ensures r.Some? ==> '\n' !in r.value.0
    ensures r.Some? ==> s == head + r.value.0 + "\n" + marker + r.value.1 + "\n"
  {
    if !StartsWith(s, head) then None
    else
      var rest := s[|head|..];
      match IndexOf(rest, '\n')
      case None => None
      case Some(i) =>
        var after := rest[i + 1..];
        if |marker| < |after| && StartsWith(after, marker) && after[|after| - 1] == '\n' then
          var x := rest[..i];
          var y := after[|marker|..|after| - 1];
          Reassemble(s, head, rest, i, marker);
          Some((x, y))
        else None
  }

  lemma Reassemble(s: string, head: string, rest: string, i: nat, marker: string)
    requires StartsWith(s, head) && rest == s[|head|..]
    requires i < |rest| && rest[i] == '\n'
    requires |marker| < |rest[i + 1..]| && StartsWith(rest[i + 1..], marker)
    requires rest[|rest| - 1] == '\n'
    ensures s == head + rest[..i] + "\n" + marker + rest[i + 1..][|marker|..|rest[i + 1..]| - 1] + "\n"
  {
    var x := rest[..i];
    var after := rest[i + 1..];
    var y := after[|marker|..|after| - 1];
    calc {
      s;
      == { assert s == s[..|head|] + s[|head|..]; }
      head + rest;
      == { assert rest == rest[..i] + [rest[i]] + rest[i + 1..]; }
      head + (x + "\n" + after);
      == { assert after == after[..|marker|] + y + [after[|after| - 1]]; }
      head + (x + "\n" + (marker + y + "\n"));
      ==
      head + x + "\n" + marker + y + "\n";
    }
  }

  lemma {:induction false} SplitLabelledRoundTrip(head: string, x: string, marker: string, y: string)
    requires '\n' !in x
    ensures SplitLabelled(head + x + "\n" + marker + y + "\n", head, marker) == Some((x, y))
  {
    var after := marker + y + "\n";
    var rest := x + "\n" + after;
    var s := head + x + "\n" + marker + y + "\n";
    JoinLines(head, x, marker, y);
    assert s == head + rest;
    DropPrefix(head, rest);
    assert StartsWith(s, head) && s[|head|..] == rest;
    IndexOfAfterPrefix(x, '\n', after);
    assert IndexOf(rest, '\n') == Some(|x|);
    assert rest[..|x|] == x;
    assert rest[|x| + 1..] == after;
    AfterLine(marker, y);
    assert |marker| < |after| && StartsWith(after, marker) && after[|after| - 1] == '\n';
    assert after[|marker|..|after| - 1] == y;
  }

  /** Regrouping of the two labelled lines that `SplitLabelled` reads. */
  lemma JoinLines(head: string, x: string, marker: string, y: string)
    ensures head + x + "\n" + marker + y + "\n" == head + (x + "\n" + (marker + y + "\n"))
  {
  }

  /** The facts `SplitLabelled` tests of the second labelled line. */
  lemma AfterLine(marker: string, y: string)
    ensures var after := marker + y + "\n";
      |marker| < |after| && StartsWith(after, marker) && after[|after| - 1] == '\n'
      && after[|marker|..|after| - 1] == y
  {
    var after := marker + y + "\n";
    assert after[..|marker|] == marker;
    assert after[|marker|..|after| - 1] == y;
  }

  /** Reads `__str__` output back into its two summaries: any text it accepts
      is the `__str__` of the pair it returns. */
  function ParseSummaryText(s: string): (r: Option<(string, string)>)
    ensures r.Some? ==> '\n' !in r.value.0
    ensures r.Some? ==>
      s == "**AgentSummarizeAction**\n" + "SUMMARIZED ACTIONS: " + r.value.0 + "\n"
           + "SUMMARIZED OBSERVATIONS: " + r.value.1 + "\n"
  {
    SplitLabelled(s, SummaryHeader + ActionsLabel, ObservationsLabel)
  }

  /** `__str__` loses nothing when the actions summary is a single line: both
      summaries are read back from the text. */
  lemma SummaryTextRoundTrip(a: Action)
    requires a.Summarize?
    requires '\n' !in a.summarizedActions
    ensures ParseSummaryText(SummaryText(a)) == Some((a.summarizedActions, a.summarizedObservations))
  {
    SplitLabelledRoundTrip(SummaryHeader + ActionsLabel, a.summarizedActions, ObservationsLabel, a.summarizedObservations);
  }

  /** Without the one-line restriction `__str__` is not injective: an actions
      summary that itself contains the observations line renders like a
      shorter actions summary with a longer observations summary. */
  lemma SummaryTextNotInjective(x: string, y: string, z: string)
    ensures
      var a := Summarize(x + "\n" + ObservationsLabel + y, z);
      var b := Summarize(x, y + "\n" + ObservationsLabel + z);
      a != b && SummaryText(a) == SummaryText(b)
  {
    assert |x + "\n" + ObservationsLabel + y| != |x|;
    LinesRegroup(SummaryHeader + ActionsLabel, ObservationsLabel, x, y, z);
  }

  /** The two ways of splitting three labelled lines into two fields give the
      same text. */
  lemma LinesRegroup(head: string, marker: string, x: string, y: string, z: string)
    ensures head + (x + "\n" + marker + y) + "\n" + marker + z + "\n"
         == head + x + "\n" + marker + (y + "\n" + marker + z) + "\n"
  {
  }

  /** The finish message cannot be read back: an empty thought and a thought
      equal to the fixed greeting give the same message. */
  lemma FinishMessageNotInvertible()
    ensures Finish(thought := FinishDefault) != Finish(thought := "")
    ensures Message(Finish(thought := FinishDefault)) == Message(Finish(thought := ""))
  {
    assert |FinishDefault| != |""|;
  }
}

=== FILE: condenser_prompts.dfy ===
/** The summary-response validator of the condenser
    (opendevin/condenser/prompts.py). Raw LLM text is decoded as JSON, mapped
    onto an action, accepted only when that action is a summarize action, and
    then attributed to the agent. The two LLM error kinds are re-raised as one
    invalid-summary error; every other exception passes through unchanged.

    The JSON decoder and the dict-to-action mapper belong to other parts of the
    repository and are parameters here: nothing is assumed about which inputs
    they accept. */
module CondenserPrompts {
  import opened Wrappers
  import opened Strings
  import opened AgentActions

  /** Word budget the summary prompt asks the LLM to respect. The prompt only
      asks for it; no parser step counts words. */
  const WordLimit: nat := 200

  /** A decoded JSON document. */
  datatype JsonValue =
    | JNull
    | JBool(b: bool)
    | JNumber(n: int)
    | JString(s: string)
    | JArray(items: seq<JsonValue>)
    | JObject(fields: map<string, JsonValue>)

  /** An exception raised by the decoder or the mapper. `str(e)` is `message`. */
  datatype Exception =
    | LLMResponseError(message: string)
    | LLMMalformedActionError(message: string)
    | OtherException(className: string, message: string)

  /** What the mapper may hand back: one of the agent-control actions, or an
      action class defined elsewhere, known here only by its qualified name. */
  datatype Mapped = AgentAction(action: Action) | ForeignAction(qualifiedName: string)

  /** What the parser raises: the invalid-summary error, whose `chained` is the
      exception it was raised `from` (`__cause__`), or an exception of any other
      kind that it does not catch. */
  datatype ParseError =
    | InvalidSummaryResponse(message: string, chained: Option<Exception>)
    | Uncaught(cause: Exception)

  type Decoder = string -> Result<JsonValue, Exception>
  type ActionMapper = JsonValue -> Result<Option<Mapped>, Exception>

  // Written in two pieces so that the verifier can see its first character.
  const ExpectedPrefix: string := "Expected a summarize action, " + "but the response got "
  const FailedPrefix: string := "Failed to parse the response: "
  const AgentModule: string := "opendevin.events.action.agent."

  const ReprOpen: string := "<class '"
  const ReprClose: string := "'>"

  /** The module-qualified class name of a mapped action. */
  function QualifiedName(m: Mapped): string {
    match m
    case AgentAction(a) => AgentModule + ClassName(a)
    case ForeignAction(q) => q
  }

  /** `str(type(action))` for a mapped action. */
  function TypeRepr(m: Mapped): (r: string)
    ensures StartsWith(r, ReprOpen) && EndsWith(r, ReprClose)
    ensures |r| == |ReprOpen| + |QualifiedName(m)| + |ReprClose|
    ensures r[|ReprOpen|..|r| - |ReprClose|] == QualifiedName(m)
  {
    var r := ReprOpen + QualifiedName(m) + ReprClose;
    assert r[..|ReprOpen|] == ReprOpen;
    assert r[|r| - |ReprClose|..] == ReprClose;
    assert r[|ReprOpen|..|r| - |ReprClose|] == QualifiedName(m);
    r
  }

  /** Two mapped actions print the same type exactly when they have the same
      qualified class name; in particular two agent-control actions print the
      same type exactly when they are the same variant. */
  lemma {:induction false} TypeReprIdentifiesClass(m: Mapped, n: Mapped)
    ensures TypeRepr(m) == TypeRepr(n) <==> QualifiedName(m) == QualifiedName(n)
    ensures m.AgentAction? && n.AgentAction? ==>
      (TypeRepr(m) == TypeRepr(n) <==> Tag(m.action) == Tag(n.action))
  {
    if m.AgentAction? && n.AgentAction? {
      ClassNameIdentifiesVariant(m.action, n.action);
      if QualifiedName(m) == QualifiedName(n) {
        assert ClassName(m.action) == QualifiedName(m)[|AgentModule|..];
        assert ClassName(n.action) == QualifiedName(n)[|AgentModule|..];
      }
    }
  }

  /** The text after "got " in the wrong-kind message: the received type, or
      `None` when nothing was mapped (an action object is assumed truthy). */
  function Received(mapped: Option<Mapped>): (r: string)
    ensures mapped.None? ==> r == "None"
    ensures mapped.Some? ==> StartsWith(r, ReprOpen) && EndsWith(r, ReprClose)
    ensures mapped.Some? ==> |ReprOpen| + |ReprClose| <= |r| && r[|ReprOpen|..|r| - |ReprClose|] == QualifiedName(mapped.value)
  {
    match mapped
    case None => "None"
    case Some(m) => TypeRepr(m)
  }

  predicate IsSummary(mapped: Option<Mapped>) {
    mapped.Some? && mapped.value.AgentAction? && mapped.value.action.Summarize?
  }

  /** Decoding followed by mapping: the first exception either step raises, or
      the mapper's answer. */
  function DecodeAndMap(response: string, decode: Decoder, fromDict: ActionMapper): Result<Option<Mapped>, Exception> {
    match decode(response)
    case Failure(e) => Failure(e)
    case Success(json) => fromDict(json)
  }

  /** The except-clause: the two LLM error kinds become the invalid-summary
      error with the original message, anything else escapes unchanged. */
  function Wrap(e: Exception): (r: ParseError)
    ensures !e.OtherException? <==> r.InvalidSummaryResponse?
    ensures r.InvalidSummaryResponse? ==> r.message == FailedPrefix + e.message
    ensures r.InvalidSummaryResponse? ==> r.chained == Some(e)
    ensures r.Uncaught? ==> r.cause == e
  {
    match e
    case LLMResponseError(msg) => InvalidSummaryResponse(FailedPrefix + msg, Some(e))
    case LLMMalformedActionError(msg) => InvalidSummaryResponse(FailedPrefix + msg, Some(e))
    case OtherException(_, _) => Uncaught(e)
  }

  /** `parse_summary_response`. The invalid-summary error raised for a wrong
      kind is taken to be no subclass of the two caught kinds, so it is not
      wrapped a second time. */
  function ParseSummaryResponse(response: string, decode: Decoder, fromDict: ActionMapper): (r: Result<Action, ParseError>)
    // a success is always a summarize action attributed to the agent
    ensures r.Success? ==> r.value.Summarize? && r.value.source == Some(Agent)
    // it succeeds exactly when the mapper produced a summarize action ...
    ensures var d := DecodeAndMap(response, decode, fromDict);
      r.Success? <==> d.Success? && IsSummary(d.value)
    // ... and changes nothing of it but its source
    ensures var d := DecodeAndMap(response, decode, fromDict);
      r.Success? ==> SameExceptSource(r.value, d.value.value.action)
    // nothing mapped, or the wrong kind: the message names what was received
    ensures var d := DecodeAndMap(response, decode, fromDict);
      d.Success? && !IsSummary(d.value) ==> r == Failure(InvalidSummaryResponse(ExpectedPrefix + Received(d.value), None))
    // in particular, nothing mapped reads "... got None"
    ensures var d := DecodeAndMap(response, decode, fromDict);
      d == Success(None) ==> r == Failure(InvalidSummaryResponse(ExpectedPrefix + "None", None))
    // an exception of either LLM kind is re-raised with its message, chained from it
    ensures var d := DecodeAndMap(response, decode, fromDict);
      d.Failure? && !d.error.OtherException? ==> r == Failure(InvalidSummaryResponse(FailedPrefix + d.error.message, Some(d.error)))
    // any other exception escapes unchanged
    ensures var d := DecodeAndMap(response, decode, fromDict);
      d.Failure? && d.error.OtherException? ==> r == Failure(Uncaught(d.error))
  {
    match decode(response)
    case Failure(e) => Failure(Wrap(e))
    case Success(actionDict) =>
      match fromDict(actionDict)
      case Failure(e) => Failure(Wrap(e))
      case Success(action) =>
        if action.None? || !(action.value.AgentAction? && action.value.action.Summarize?) then
          Failure(InvalidSummaryResponse(ExpectedPrefix + Received(action), None))
        else
          Success(WithSource(action.value.action, Agent))
  }

  /** Two mapper answers that differ at most in the source of the action. */
  predicate AgreeExceptSource(x: Result<Option<Mapped>, Exception>, y: Result<Option<Mapped>, Exception>) {
    match (x, y)
    case (Success(Some(AgentAction(a))), Success(Some(AgentAction(b)))) => SameExceptSource(a, b)
    case _ => x == y
  }

  /** Whatever source or role the mapped action claimed, the outcome is the
      same: provenance comes from the parser alone. */
  lemma {:induction false} InputSourceIsIgnored(response: string, decode: Decoder, fromDict: ActionMapper, fromDict': ActionMapper)
    requires AgreeExceptSource(DecodeAndMap(response, decode, fromDict), DecodeAndMap(response, decode, fromDict'))
    ensures ParseSummaryResponse(response, decode, fromDict) == ParseSummaryResponse(response, decode, fromDict')
  {
    var x := DecodeAndMap(response, decode, fromDict);
    var y := DecodeAndMap(response, decode, fromDict');
    if x.Success? && x.value.Some? && x.value.value.AgentAction? {
      var a := x.value.value.action;
      var b := y.value.value.action;
      assert Tag(WithSource(a, Agent)) == Tag(WithSource(b, Agent));
      assert Tag(a) == Tag(b);
      assert ClassName(a) == ClassName(b);
    }
  }

  /** An accepted summary reads the same as the mapped one: its message and
      both summaries are carried over unchanged. */
  lemma AcceptedSummaryKeepsContent(response: string, decode: Decoder, fromDict: ActionMapper)
    requires ParseSummaryResponse(response, decode, fromDict).Success?
    ensures
      var a := DecodeAndMap(response, decode, fromDict).value.value.action;
      var r := ParseSummaryResponse(response, decode, fromDict).value;
      && r.summarizedActions == a.summarizedActions
      && r.summarizedObservations == a.summarizedObservations
      && r.lastSummarizedEventId == a.lastSummarizedEventId
      && r.isDelegateSummary == a.isDelegateSummary
      && Message(r) == Message(a)
  {
  }

  /** What an invalid-summary message says went wrong. */
  datatype ErrorCause = WrongKind(received: string) | ParseFailure(original: string) | UnknownCause

  function CauseOf(message: string): ErrorCause {
    if StartsWith(message, ExpectedPrefix) then WrongKind(message[|ExpectedPrefix|..])
    else if StartsWith(message, FailedPrefix) then ParseFailure(message[|FailedPrefix|..])
    else UnknownCause
  }

  /** The two message forms cannot be confused: the cause, and what was
      received or the original message, are read back from the text. */
  lemma {:induction false} CauseOfRoundTrip(received: string, original: string)
    ensures CauseOf(ExpectedPrefix + received) == WrongKind(received)
    ensures CauseOf(FailedPrefix + original) == ParseFailure(original)
  {
    DropPrefix(ExpectedPrefix, received);
    DropPrefix(FailedPrefix, original);
    assert (FailedPrefix + original)[0] == 'F';
    assert ExpectedPrefix[0] == 'E';
  }

  /** Every invalid-summary error the parser raises is of one of the two
      forms, so its cause can always be read back. */
  lemma ParserErrorsHaveKnownCause(response: string, decode: Decoder, fromDict: ActionMapper)
    requires ParseSummaryResponse(response, decode, fromDict).Failure?
    requires ParseSummaryResponse(response, decode, fromDict).error.InvalidSummaryResponse?
    ensures CauseOf(ParseSummaryResponse(response, decode, fromDict).error.message) != UnknownCause
  {
    var d := DecodeAndMap(response, decode, fromDict);
    if d.Success? {
      CauseOfRoundTrip(Received(d.value), "");
    } else {
      CauseOfRoundTrip("", d.error.message);
    }
  }

  /** "got None" names no class: a missing action and a wrong one always give
      different messages. */
  lemma NoneIsNotAType(m: Mapped)
    ensures Received(None) != Received(Some(m))
    ensures ExpectedPrefix + Received(None) != ExpectedPrefix + Received(Some(m))
  {
    assert Received(None)[0] == 'N';
    assert Received(Some(m))[..|ReprOpen|][0] == '<';
  }
}

=== FILE: llm_messages.dfy ===
/** The history carrier handed to the condenser: the content of one action or
    observation, whether it may be folded into a summary, and the id of the
    event it came from (opendevin/llm/messages.py). */
module LlmMessages {
  import opened Wrappers

  /** `message` is the role/content map, `eventId` is `None` unless the caller
      names the source event. The constructor's only behaviour is that
      default. */
  datatype Message = Message(
    message: map<string, string>,
    condensable: bool,
    eventId: Option<int> := None)

  /** Construction stores every argument unchanged and needs no argument beyond
      the content map and the flag. */
  lemma ConstructorStoresArguments(content: map<string, string>, condensable: bool, eventId: Option<int>)
    ensures Message(content, condensable, eventId).message == content
    ensures Message(content, condensable, eventId).condensable == condensable
    ensures Message(content, condensable, eventId).eventId == eventId
  {
  }

  /** Leaving out the event id is the same as passing `None`. */
  lemma OmittedEventIdIsNone(content: map<string, string>, condensable: bool)
    ensures Message(content, condensable).eventId == None
    ensures Message(content, condensable) == Message(content, condensable, None)
  {
  }
}

=== FILE: strings.dfy ===
/** Small facts about strings (`seq<char>`) used to state how rendered texts
    can be read back. */
module Strings {
  import opened Wrappers

  predicate StartsWith(s: string, prefix: string) {
    |prefix| <= |s| && s[..|prefix|] == prefix
  }

  predicate EndsWith(s: string, suffix: string) {
    |suffix| <= |s| && s[|s| - |suffix|..] == suffix
  }

  /** Position of the first occurrence of `c` in `s`, if any. */
  function IndexOf(s: string, c: char): (r: Option<nat>)
    ensures r.None? <==> c !in s
    ensures r.Some? ==> r.value < |s| && s[r.value] == c && c !in s[..r.value]
  {
    if |s| == 0 then None
    else if s[0] == c then Some(0)
    else
      match IndexOf(s[1..], c)
      case None => None
      case Some(i) =>
        assert s[..i + 1] == [s[0]] + s[1..][..i];
        Some(i + 1)
  }

  /** The first occurrence of `c` in `a + [c] + b` is the one right after `a`
      when `a` does not contain `c`. */
  lemma {:induction false} IndexOfAfterPrefix(a: string, c: char, b: string)
    requires c !in a
    ensures IndexOf(a + [c] + b, c) == Some(|a|)
  {
    var s := a + [c] + b;
    assert s[|a|] == c;
    assert s[..|a|] == a;
  }

  /** Removing a known prefix undoes prepending it. */
  lemma DropPrefix(p: string, x: string)
    ensures StartsWith(p + x, p)
    ensures (p + x)[|p|..] == x
  {
    assert (p + x)[..|p|] == p;
  }
}

=== FILE: wrappers.dfy ===
/** Failure-carrying datatypes used across the model: an optional value and a
    value-or-error result. */
module Wrappers {

  /** Python's `X | None`. */
  datatype Option<+T> = None | Some(value: T)

  /** A value, or the error that was raised instead of returning one. */
  datatype Result<+R, +E> = Success(value: R) | Failure(error: E)
}
